=== FILE: README.md ===
# INHSTools worklist model

A Dafny model of the worklist logic of the INHSTools module (`INHSTools.py`).
That module is a plugin for a 3D image viewer. It drives the digitisation of
fish specimens from a CSV worklist. The operator selects a row and imports
its image from the link in column 15. The row is marked `Processing`. Later
the landmarks or the segmentation are exported, and the row is marked
`Complete`, with the operator's lab in the `User` column.

The model covers the string and table logic under that workflow:

- `PyStrings`: the Python and POSIX path semantics the code relies on:
  `os.path.basename`, `str.split('?')[0]`, `os.path.splitext`,
  `os.path.join` and `in` on strings.
- `UrlImport`: `runImportFromURL`. It turns a link into a file name, checks
  the file name against the 13 volume extensions (case-sensitive), and builds
  the request handed to the host's downloader.
- `Worklist`: the table, modelled as named string columns of equal length.
  It covers `checkForStatusColumn`, `updateStatus`, `hideCompletedSamples`,
  `getActiveCellByCol` and `getActiveCellRow`.
- `Workflow`: the per-row state machine of `onImportVolume`,
  `updateTableAndGUI`, `onExportLandmarks` and `onExportSegmentation`, plus
  `INHSFile`.

The host's calls appear as inputs:

- the current selection (`Option<Selection>`);
- the table as shown (`view`) and the table as currently stored in its file
  (`disk`; `updateStatus` re-reads the file before every write);
- the download outcome (a function from the download request to `bool`);
- the lab identifier `labs`.

Each operation returns the new session and the stored table. The exports also
return the paths of the files they save.

## Model

| member | source | states |
|---|---|---|
| PyStrings.Basename | INHSTools.py:552 | The file part of a link has no '/', is a suffix of the link, and is either the whole link or preceded by '/'. |
| PyStrings.UpToFirst | INHSTools.py:553 | `split('?')[0]` has no '?', is a prefix of its input, and is the whole input or stops right before a '?'. |
| PyStrings.SplitExt | INHSTools.py:554 | `splitext` gives a root and extension that concatenate back to the input. The extension is empty, or it is a '.' with no further '.' and no '/'. |
| PyStrings.SplitExtFindsExtension | INHSTools.py:554 | The extension is non-empty exactly when the final component still contains a '.' after its leading dots are dropped (so `.bashrc` has none). |
| PyStrings.Join | INHSTools.py:269-273 | `os.path.join`: an absolute second part replaces the directory. Otherwise the result starts with the directory and ends with the name. The one character it may insert between them is '/', and it is inserted exactly when the directory is non-empty and does not already end in '/'. |
| PyStrings.JoinThenSuffix | INHSTools.py:269-273 | Joining `name + suffix` equals joining `name` and then appending the suffix, so the `.nrrd` and `.tif` outputs share one path stem. |
| PyStrings.JoinPlacesNameInDir | INHSTools.py:386 | A name without '/' joined onto the output directory gives the directory, then at most a '/', then that name, with no '/' added after an empty directory or one ending in '/'. Its basename is exactly the name. |
| PyStrings.Contains | INHSTools.py:360 | Python's `in` on strings holds exactly when the pattern occurs at some index. |
| UrlImport.FileNameOf | INHSTools.py:552-553 | The derived file name has no '/' and no '?', and is a prefix of the link's last component. |
| UrlImport.FileNameOfLink | INHSTools.py:552-553 | Every link of the form `dir/name?query` whose query holds no '/' yields exactly `name`: the last component, cut at its first '?'. A '/' inside the query is taken as a path separator. |
| UrlImport.DownloadRequestFor | INHSTools.py:554-567 | A download is requested exactly when the extension is one of the listed ones. The request carries the link, `VolumeFile`, the file name, and a node name that is the file name minus its extension. |
| UrlImport.ImportFromUrl | INHSTools.py:551-572 | A node is returned exactly when the extension is accepted and the host's download loads one. The node's name is the `nodeNames` passed to the download: the file's stem. |
| UrlImport.UnsupportedLinkNeverDownloads | INHSTools.py:555-559 | For an unsupported extension the result is `False` whatever the downloader would have done, so no download is attempted. |
| UrlImport.VolumeExtensionsAreLowerCase | INHSTools.py:555 | Every listed extension is a '.' followed only by lower-case letters. |
| UrlImport.UpperCaseExtensionRefused | INHSTools.py:555 | The check is case-sensitive: an extension holding an upper-case letter, such as `.TIF`, is refused. |
| Worklist.ColumnIndex | INHSTools.py:589 | `GetColumnByName` finds the first column with the given name, or none when no column has it. |
| Worklist.CheckForStatusColumn | INHSTools.py:587-598 | Without `Status`, exactly two blank columns, `User` then `Status`, are appended, existing columns stay as they were, and the table is saved. With `Status`, the table is unchanged and not saved. |
| Worklist.CheckForStatusColumnIdempotent | INHSTools.py:587-598 | Running the repair on a repaired table changes nothing and saves nothing. |
| Worklist.UpdateStatus | INHSTools.py:287-302 | Succeeds exactly when `Status` and `User` exist and view row `index` is a data row. Data row `index-1` then reads the status and the lab, and every other cell is unchanged. Without `Status` it fails and saves nothing. |
| Worklist.WriteStatus | INHSTools.py:287-302 | The stored table after a status write either is unchanged (the write failed) or differs only in that row's `Status` and `User` cells, which hold the new values. |
| Worklist.UpdateStatusOverwrites | INHSTools.py:296-300 | A second write to the same row gives the same table as writing only the second status. |
| Worklist.RepairedTableAcceptsUpdates | INHSTools.py:318-320 | After the load-time repair, a write to any existing row succeeds, unless the table already had `Status` but no `User`. |
| Worklist.HideCompletedSamples | INHSTools.py:574-585 | Hides view row `r` exactly when data row `r-1` has a non-empty `Status`. Without a `Status` column it hides nothing. |
| Worklist.ActiveCellByCol | INHSTools.py:525-532 | With no selection the result is "". A non-empty result means a selection exists and names a real cell of that column. |
| Worklist.ActiveCellRow | INHSTools.py:534-540 | With no selection the sentinel is 0 (`False`). |
| Worklist.ActiveCellLocatesRow | INHSTools.py:367-376 | A non-empty link cell means the recorded view row is a real row, and its data row holds that link. So the row marked is the row that was read. |
| Workflow.IsInhsFile | INHSTools.py:358-363 | True exactly when "INHS" occurs somewhere in the file name. |
| Workflow.ImportVolume | INHSTools.py:365-381 | Records the link and the specimen stem. A non-empty link sets the volume to the load's result, so a failed load leaves none. Only when the link is non-empty and the load returns a node does it record the row and write `Processing` through `updateStatus`. On either failure branch the stored table and the recorded row are untouched. |
| Workflow.ImportMarksProcessingOnlyAfterLoad | INHSTools.py:370-381 | The stored table changes on import only after a successful load, and only in the selected row's `Status`/`User` cells (`Processing`, lab). When both columns exist and the row exists, that write always happens, even on a row already `Complete`. |
| Workflow.UpdateTableAndGui | INHSTools.py:390-391 | When a row is recorded and the write can succeed, that row's `Status` reads `Complete` and its `User` the lab. Nothing else changes, and with no recorded row nothing is saved. |
| Workflow.ExportLandmarks | INHSTools.py:383-388 | Once a landmark node exists, saves one file `<dir>/<specimen>.fcsv` and marks the recorded row `Complete`. Otherwise nothing happens. |
| Workflow.ExportSegmentation | INHSTools.py:266-277 | Once a segmentation exists, saves `<dir>/<specimen>.nrrd` and `<dir>/<specimen>.tif` (the same path stem) and marks the recorded row `Complete`. Otherwise nothing happens. |
| Workflow.SegmentationFilesInOutputDir | INHSTools.py:269-273 | A specimen name without '/' makes each segmentation output the output directory, then at most a '/', then `<specimen>.nrrd` or `<specimen>.tif`. |
| Workflow.ImportThenExportCompletes | INHSTools.py:365-391 | Import followed by landmark export marks the same row `Processing` and then `Complete`, with `User` the lab. No other stored cell changes, and one `.fcsv` named after that row's specimen file is saved (with the corrected landmark stem; see Findings). |
| Workflow.ProcessedRowIsHidden | INHSTools.py:574-585 | A row marked by a successful import is one that `hideCompletedSamples` would hide. |
| Workflow.LandmarkStemAsWrittenLeavesOutputDir | INHSTools.py:385-386 | As written, any link containing '/' yields a stem containing '/'. The saved landmark path is then not a file named `<stem>.fcsv` inside the output directory. |
| Workflow.LandmarkStemAsWritten | INHSTools.py:385 | As written, the landmark stem is the whole link without its extension: the stem and the link's extension concatenate back to the link. |
| Workflow.LandmarkFileInOutputDir | INHSTools.py:385-386 | With the corrected stem and a specimen name without '/', the landmark file is the output directory, then at most a '/', then `<specimen>.fcsv`. This holds with or without a segmentation. When one exists, the landmark file shares the path stem `<dir>/<specimen>` with the segmentation outputs. |

## Left out

- Widget construction, layout XML and button enabling (lines 56-255, 304-308, 329-338, 401-409). They are user interface and hold no table or string logic. In particular, the disabled buttons that stop an export before any import are not modelled.
- The scene cleanup in `updateTableAndGUI` (lines 392-400). The model keeps the session attributes, which survive it in the source too.
- `flip` and `onFlipX/Y/Z` (340-356, 506-514). Their effect comes from the host's `hardenTransform` on image data, which is not visible here.
- `run` (437-442), `takeScreenshot` (444-478), `initializeSegmentation`/`addNewSegment` (480-504), `onStartSegmentation` (260-264) and `onLaunchMarkups` (279-285). They only call host scene and markup services, and the segment colours are floating point. The session's `markups` and `segmentation` flags stand for the nodes these create.
- `downloadFromURL`, `loadNodeFromFile` and `saveNode` are I/O. The download outcome is a function parameter, the file's contents are the `disk` table, and saved files are returned as paths.
- `onLoadTable` (310-327) is the host load followed by `checkForStatusColumn`. The model keeps only the repair.
- `getActiveCell` (516-523) is unused.
- `runImport` (542-549) refers to an undefined variable and is never called.
- `LogDataObject` (412-423) is unused.
- The test class (600-652) needs the network and calls a method that does not exist.
- The lab identifier read from the environment (line 17) is a parameter `labs`.
- The host's `GetCellText` is taken to return "" for a cell outside the table.
- A missing column (`bool(column)` false) is taken to mean the host returned no column object.
- Worklist.UpdateStatus: a row index outside the table is reported as `RowOutOfRange`. The source writes there without a bounds check, which the host leaves undefined.
- Worklist.UpdateStatus: when `Status` exists but `User` does not, the source has already changed the `Status` cell of the table in memory before it fails. Only the stored table is modelled, and it stays unchanged.
- Workflow.ExportLandmarks: names the file with the corrected stem (see Findings), not the stem computed at line 385.
- UrlImport.ImportFromUrl: the host's `downloadFromURL` names the node it loads (lines 562-569). The loaded node is assumed to be named `nodeNames`.
- PyStrings.Basename: POSIX only. On Windows, `os.path` also splits on '\\' and after a drive prefix such as `C:`.
- PyStrings.SplitExt: POSIX only. On Windows, `os.path.splitext` also treats '\\' as a separator.
- PyStrings.Join: POSIX only. On Windows, `os.path.join` inserts '\\' and treats drive prefixes specially.
- Status values are plain strings. The code has no guard against re-importing a `Complete` row; it marks it `Processing` again, and the model does the same.
- Concurrent edits of the worklist file between the re-read and the save in `updateStatus` are not modelled. Each write takes the stored table as an input.

## Findings

| source | as written | input that shows it | evidently intended | confidence | as-written member | corrected member |
|---|---|---|---|---|---|---|
| INHSTools.py:385-386 | The landmark file name is `os.path.splitext(self.activeCellString)[0] + '.fcsv'`. `activeCellString` is the full download link, so the name keeps the scheme, host and directories of the URL. | link `https://host/fish/INHS_1.jpg`, specimen file `INHS_1.jpg`, output directory `out`: the path saved is `out/https://host/fish/INHS_1.fcsv`, not `out/INHS_1.fcsv`. The row is still marked `Complete`. | A file `<specimen>.fcsv` directly in the output directory, where `<specimen>` is the stem of the row's specimen file (column 12). That is how `onExportSegmentation` names its `.nrrd` and `.tif` outputs (lines 269 and 273). It computes the same `splitext(activeCellString)[0]` at line 268 and never uses it. | medium, not executed | Workflow.LandmarkStemAsWrittenLeavesOutputDir | Workflow.LandmarkFileInOutputDir |

=== FILE: py_strings.dfy ===
/**
 The Python string and POSIX path operations the worklist code relies on:
 `str.rfind`, `str.split(c)[0]`, `in` on strings, and `os.path.basename`,
 `os.path.splitext` and `os.path.join` on POSIX paths.
 */
module PyStrings {

  /** Index of the last occurrence of `c` in `s`, or -1 when there is none (`str.rfind`). */
  function LastIndexOf(s: string, c: char): (r: int)
    ensures -1 <= r < |s|
    ensures r >= 0 ==> s[r] == c
    ensures forall k :: r < k < |s| ==> s[k] != c
  {
    if |s| == 0 then -1
    else if s[|s| - 1] == c then |s| - 1
    else LastIndexOf(s[..|s| - 1], c)
  }

  /** No character of `s` is `c`. */
  predicate Lacks(s: string, c: char)
  {
    forall k :: 0 <= k < |s| ==> s[k] != c
  }

  /** The final component of a POSIX path: the text after its last '/' (`os.path.basename`). */
  function Basename(p: string): (r: string)
    ensures '/' !in r
    ensures |r| <= |p| && r == p[|p| - |r|..]
    ensures |r| == |p| || p[|p| - |r| - 1] == '/'
  {
    var sep := LastIndexOf(p, '/');
    var r := p[sep + 1..];
    assert Lacks(r, '/');
    r
  }

  /** The basename of `dir + name` is `name` when `dir` is empty or ends in '/' and `name` holds no '/'. */
  lemma BasenameAfterSeparator(dir: string, name: string)
    requires dir == [] || dir[|dir| - 1] == '/'
    requires '/' !in name
    ensures Basename(dir + name) == name
  {
    var p := dir + name;
    var sep := LastIndexOf(p, '/');
    forall k | |dir| <= k < |p|
      ensures p[k] != '/'
    {
      assert p[k] == name[k - |dir|];
    }
    if dir != [] {
      assert p[|dir| - 1] == '/';
    }
    assert sep == |dir| - 1;
    assert p[sep + 1..] == name;
  }

  /** The text of `s` before its first `c`, or all of `s` (`s.split(c)[0]`). */
  function UpToFirst(s: string, c: char): (r: string)
    ensures c !in r
    ensures r <= s
    ensures |r| == |s| || s[|r|] == c
  {
    if |s| == 0 || s[0] == c then [] else [s[0]] + UpToFirst(s[1..], c)
  }

  /** Cutting `head + tail` at the first `c` gives `head` when `head` has no `c` and `tail` starts with one. */
  lemma {:induction false} UpToFirstStopsAtSeparator(head: string, tail: string, c: char)
    requires c !in head
    requires tail == [] || tail[0] == c
    ensures UpToFirst(head + tail, c) == head
  {
    if head != [] {
      assert (head + tail)[0] == head[0];
      assert (head + tail)[1..] == head[1..] + tail;
      UpToFirstStopsAtSeparator(head[1..], tail, c);
    }
  }

  /** `s` without its leading dots. */
  function StripLeadingDots(s: string): (r: string)
    ensures |r| <= |s| && r == s[|s| - |r|..]
    ensures r == [] || r[0] != '.'
    ensures forall k :: 0 <= k < |s| - |r| ==> s[k] == '.'
  {
    if s != [] && s[0] == '.' then StripLeadingDots(s[1..]) else s
  }

  /** Some character of `p[lo..hi]` is not a dot: the leading-dot scan of `splitext`. */
  function NonDotBetween(p: string, lo: int, hi: int): (r: bool)
    requires 0 <= lo <= hi <= |p|
    ensures r <==> (exists k :: lo <= k < hi && p[k] != '.')
    decreases hi - lo
  {
    if lo == hi then false
    else p[lo] != '.' || NonDotBetween(p, lo + 1, hi)
  }

  /**
   POSIX `os.path.splitext`: the extension runs from the last '.' to the end,
   provided that '.' lies in the final component and some non-dot character of
   that component precedes it; otherwise the extension is empty.
   */
  function SplitExt(p: string): (r: (string, string))
    ensures r.0 + r.1 == p
    ensures r.1 == [] || (r.1[0] == '.' && '.' !in r.1[1..] && '/' !in r.1)
  {
    var sep := LastIndexOf(p, '/');
    var dot := LastIndexOf(p, '.');
    if sep < dot && NonDotBetween(p, sep + 1, dot) then
      var ext := p[dot..];
      assert Lacks(ext, '/') && Lacks(ext[1..], '.');
      (p[..dot], ext)
    else
      (p, [])
  }

  /** After its leading dots are dropped, `b` still holds a '.' exactly when some non-dot precedes a dot. */
  lemma DotAfterLeadingDots(b: string)
    ensures '.' in StripLeadingDots(b) <==> InnerDot(b)
  {
    var sd := StripLeadingDots(b);
    var m := |b| - |sd|;
    if '.' in sd {
      var j :| 0 <= j < |sd| && sd[j] == '.';
      assert b[m] == sd[0] != '.';
      assert b[m + j] == sd[j];
    }
    if InnerDot(b) {
      var k, d :| 0 <= k < d < |b| && b[k] != '.' && b[d] == '.';
      assert m <= k;
      assert sd[d - m] == b[d];
    }
  }

  /** A dot in the final component preceded there by a non-dot character. */
  ghost predicate InnerDot(b: string)
  {
    exists k, d :: 0 <= k < d < |b| && b[k] != '.' && b[d] == '.'
  }

  lemma ExtensionImpliesInnerDot(p: string)
    requires SplitExt(p).1 != []
    ensures InnerDot(Basename(p))
  {
    var sep := LastIndexOf(p, '/');
    var dot := LastIndexOf(p, '.');
    assert sep < dot && NonDotBetween(p, sep + 1, dot);
    var i :| sep + 1 <= i < dot && p[i] != '.';
    InnerDotOfSuffix(p, sep + 1, i, dot);
  }

  /** Positions `i < d` of `p` at or after `start`, a non-dot then a dot, make an inner dot of `p[start..]`. */
  lemma InnerDotOfSuffix(p: string, start: int, i: int, d: int)
    requires 0 <= start <= i < d < |p|
    requires p[i] != '.' && p[d] == '.'
    ensures InnerDot(p[start..])
  {
    var b := p[start..];
    assert b[i - start] == p[i];
    assert b[d - start] == p[d];
  }

  lemma InnerDotImpliesExtension(p: string)
    requires InnerDot(Basename(p))
    ensures SplitExt(p).1 != []
  {
    var sep := LastIndexOf(p, '/');
    var dot := LastIndexOf(p, '.');
    var b := Basename(p);
    assert b == p[sep + 1..];
    var k, d :| 0 <= k < d < |b| && b[k] != '.' && b[d] == '.';
    assert p[sep + 1 + d] == b[d];
    assert p[sep + 1 + k] == b[k];
    assert NonDotBetween(p, sep + 1, dot);
  }

  /**
   The extension is non-empty exactly when the final component, once its
   leading dots are dropped, still contains a '.': so ".bashrc" and "a/..." have
   none, while "a.b.tif" and "..x.y" have one.
   */
  lemma SplitExtFindsExtension(p: string)
    ensures SplitExt(p).1 != [] <==> '.' in StripLeadingDots(Basename(p))
  {
    DotAfterLeadingDots(Basename(p));
    if SplitExt(p).1 != [] {
      ExtensionImpliesInnerDot(p);
    }
    if InnerDot(Basename(p)) {
      InnerDotImpliesExtension(p);
    }
  }

  /** POSIX `os.path.join` of a directory and one further component. */
  function Join(dir: string, name: string): (r: string)
    ensures |name| > 0 && name[0] == '/' ==> r == name
    ensures !(|name| > 0 && name[0] == '/') ==>
              dir <= r && |dir| + |name| <= |r| <= |dir| + 1 + |name| && r[|r| - |name|..] == name
    ensures !(|name| > 0 && name[0] == '/') && |r| == |dir| + 1 + |name| ==> r[|dir|] == '/'
    ensures !(|name| > 0 && name[0] == '/') ==> (|r| == |dir| + |name| <==> dir == [] || dir[|dir| - 1] == '/')
  {
    if |name| > 0 && name[0] == '/' then name
    else if |dir| == 0 || dir[|dir| - 1] == '/' then dir + name
    else dir + "/" + name
  }

  /** A suffix not starting with '/' can be added before or after joining. */
  lemma JoinThenSuffix(dir: string, name: string, suffix: string)
    requires suffix != [] && suffix[0] != '/'
    ensures Join(dir, name + suffix) == Join(dir, name) + suffix
  {
    if name != [] {
      assert (name + suffix)[0] == name[0];
    }
  }

  /** A component without '/' joined onto a directory is that directory's child named exactly `name`. */
  lemma JoinPlacesNameInDir(dir: string, name: string)
    requires '/' !in name
    ensures dir <= Join(dir, name)
    ensures Basename(Join(dir, name)) == name
    ensures Join(dir, name) == dir + name || Join(dir, name) == dir + "/" + name
    ensures dir == [] || dir[|dir| - 1] == '/' ==> Join(dir, name) == dir + name
  {
    if name != [] {
      assert name[0] in name;
    }
    if |dir| == 0 || dir[|dir| - 1] == '/' {
      BasenameAfterSeparator(dir, name);
    } else {
      BasenameAfterSeparator(dir + "/", name);
      assert dir + "/" + name == (dir + "/") + name;
    }
  }

  /** `pat` occurs in `s` starting at index `i`. */
  ghost predicate OccursAt(s: string, pat: string, i: int)
  {
    0 <= i && i + |pat| <= |s| && s[i..i + |pat|] == pat
  }

  /** Python's `pat in s` on strings. */
  function Contains(s: string, pat: string): (r: bool)
    ensures r <==> exists i :: OccursAt(s, pat, i)
    decreases |s|
  {
    if |s| < |pat| then
      assert forall i :: !OccursAt(s, pat, i);
      false
    else if s[..|pat|] == pat then
      assert OccursAt(s, pat, 0);
      true
    else
      var rest := Contains(s[1..], pat);
      assert forall i :: OccursAt(s[1..], pat, i) ==> OccursAt(s, pat, i + 1) by {
        forall i | OccursAt(s[1..], pat, i)
          ensures OccursAt(s, pat, i + 1)
        {
          assert s[1..][i..i + |pat|] == s[i + 1..i + 1 + |pat|];
        }
      }
      assert forall i :: OccursAt(s, pat, i) ==> i > 0 && OccursAt(s[1..], pat, i - 1) by {
        forall i | OccursAt(s, pat, i)
          ensures i > 0 && OccursAt(s[1..], pat, i - 1)
        {
          assert s[1..][i - 1..i - 1 + |pat|] == s[i..i + |pat|];
        }
      }
      rest
  }
}

=== FILE: url_import.dfy ===
/**
 `runImportFromURL`: how a link from the worklist is turned into a file
 name, classified by its extension, and handed to the host's downloader.
 */
module UrlImport {
  import opened Wrappers
  import opened PyStrings

  /** The suffixes accepted as volume files; the comparison is exact, so case matters. */
  const VolumeExtensions: seq<string> :=
    [".dcm", ".nrrd", ".nii", ".mhd", ".mha", ".hdr", ".img", ".bmp", ".jpg", ".jpeg", ".png", ".tif", ".tiff"]

  /** The load type requested from the host for every accepted file. */
  const VolumeFileType := "VolumeFile"

  /** The name a link's file is saved under: its last path component, cut at the first '?'. */
  function FileNameOf(link: string): (r: string)
    ensures '/' !in r && '?' !in r
    ensures r <= Basename(link)
  {
    UpToFirst(Basename(link), '?')
  }

  /**
   Any link of the form `dir` + `name` + `query`, where `dir` is empty or ends
   in '/', `name` holds neither '/' nor '?', and `query` is empty or a '?'
   followed by no '/', yields exactly `name`.
   */
  lemma FileNameOfLink(dir: string, name: string, query: string)
    requires dir == [] || dir[|dir| - 1] == '/'
    requires '/' !in name && '?' !in name
    requires query == [] || query[0] == '?'
    requires '/' !in query
    ensures FileNameOf(dir + name + query) == name
  {
    assert dir + name + query == dir + (name + query);
    assert '/' !in name + query by {
      forall k | 0 <= k < |name + query|
        ensures (name + query)[k] != '/'
      {
        if k < |name| {
          assert (name + query)[k] == name[k];
        } else {
          assert (name + query)[k] == query[k - |name|];
        }
      }
    }
    BasenameAfterSeparator(dir, name + query);
    UpToFirstStopsAtSeparator(name, query, '?');
  }

  /** The arguments `runImportFromURL` passes to the host's `downloadFromURL`. */
  datatype DownloadRequest = DownloadRequest(nodeName: string, fileName: string, fileType: string, uri: string)

  /** A scene node produced by a successful download-and-load. */
  datatype VolumeNode = VolumeNode(name: string)

  /**
   The download requested for `link`, or None when the file's extension is not
   one of the accepted volume suffixes (in which case nothing is downloaded).
   */
  function DownloadRequestFor(link: string): (r: Option<DownloadRequest>)
    ensures r.Some? <==> SplitExt(FileNameOf(link)).1 in VolumeExtensions
    ensures r.Some? ==>
              && r.value.uri == link
              && r.value.fileType == VolumeFileType
              && r.value.fileName == FileNameOf(link)
              && r.value.nodeName + SplitExt(r.value.fileName).1 == r.value.fileName
              && '/' !in r.value.nodeName && '?' !in r.value.nodeName
  {
    var fileName := FileNameOf(link);
    var split := SplitExt(fileName);
    if split.1 in VolumeExtensions then
      assert forall k :: 0 <= k < |split.0| ==> split.0[k] == fileName[k];
      Some(DownloadRequest(split.0, fileName, VolumeFileType, link))
    else
      None
  }

  /**
   `runImportFromURL(link)`: the loaded node, or None (Python's `False`) when
   the extension is not accepted or the host's download yields no node.
   `download` stands for the host's `downloadFromURL`, true when it loads a node.
   */
  function ImportFromUrl(link: string, download: DownloadRequest -> bool): (r: Option<VolumeNode>)
    ensures r.Some? <==> DownloadRequestFor(link).Some? && download(DownloadRequestFor(link).value)
    ensures r.Some? ==> r.value.name + SplitExt(FileNameOf(link)).1 == FileNameOf(link)
  {
    match DownloadRequestFor(link)
    case None => None
    case Some(request) => if download(request) then Some(VolumeNode(request.nodeName)) else None
  }

  /** An unsupported link fails whatever the host would have done: no download is consulted. */
  lemma UnsupportedLinkNeverDownloads(link: string, d1: DownloadRequest -> bool, d2: DownloadRequest -> bool)
    requires SplitExt(FileNameOf(link)).1 !in VolumeExtensions
    ensures ImportFromUrl(link, d1) == ImportFromUrl(link, d2) == None
  {
  }

  /** `e` is a '.' followed by at least one character, all lower-case letters. */
  predicate LowerCaseSuffix(e: string)
  {
    |e| >= 2 && e[0] == '.' && forall k :: 1 <= k < |e| ==> 'a' <= e[k] <= 'z'
  }

  /** Every accepted suffix is a '.' followed only by lower-case letters. */
  lemma VolumeExtensionsAreLowerCase()
    ensures forall e :: e in VolumeExtensions ==> LowerCaseSuffix(e)
  {
  }

  /** No suffix holding an upper-case letter is on the list. */
  lemma UpperCaseNotListed(ext: string, k: int)
    requires 0 <= k < |ext| && 'A' <= ext[k] <= 'Z'
    ensures ext !in VolumeExtensions
  {
    assert !LowerCaseSuffix(ext);
    VolumeExtensionsAreLowerCase();
  }

  /** The whitelist is case-sensitive: an extension with an upper-case letter, like ".TIF", is refused. */
  lemma UpperCaseExtensionRefused(link: string, k: int)
    requires var ext := SplitExt(FileNameOf(link)).1; 0 <= k < |ext| && 'A' <= ext[k] <= 'Z'
    ensures DownloadRequestFor(link).None?
  {
    UpperCaseNotListed(SplitExt(FileNameOf(link)).1, k);
  }
}

=== FILE: workflow.dfy ===
/**
 The per-specimen workflow of the module's widget: importing the selected
 row's image marks the row `Processing`; exporting its landmarks or its
 segmentation writes the output files and marks the row `Complete`. Host
 calls appear as inputs: the selection, the table as shown, the table as
 currently stored in its file, and the outcome of the download.
 */
module Workflow {
  import opened Wrappers
  import opened PyStrings
  import opened Worklist
  import opened UrlImport

  /** Column (0-based) holding the image link. */
  const LinkColumn: nat := 15
  /** Column (0-based) holding the specimen's file name. */
  const SpecimenFileColumn: nat := 12

  const Processing := "Processing"
  const Complete := "Complete"

  const LandmarkSuffix := ".fcsv"
  const SegmentationSuffix := ".nrrd"
  const LabelmapSuffix := ".tif"

  /** The widget's per-specimen attributes. */
  datatype Session = Session(
    activeCell: string,          // the link of the last import attempt
    specimenName: string,        // stem of the specimen file name of the last import attempt
    volume: Option<VolumeNode>,  // the imported volume, None after a failed load
    activeRow: Option<int>,      // view row of the last successful import; absent before the first one
    markups: bool,               // a landmark node has been created
    segmentation: bool)          // a segmentation node has been created

  /** The effect of one operation: the new session, the table as stored afterwards, and the output files saved. */
  datatype Outcome = Outcome(session: Session, disk: Table, saved: seq<string>)

  /** `INHSFile`: the file name contains "INHS". */
  function IsInhsFile(fileName: string): (r: bool)
    ensures r <==> exists i :: OccursAt(fileName, "INHS", i)
  {
    Contains(fileName, "INHS")
  }

  /** The selected row's import succeeds: its link cell is non-empty and the host loads a node for it. */
  predicate Loads(view: Table, sel: Option<Selection>, download: DownloadRequest -> bool)
  {
    var link := ActiveCellByCol(view, sel, LinkColumn);
    link != "" && ImportFromUrl(link, download).Some?
  }

  /**
   `onImportVolume`: reads the link and specimen cells of the selected row of
   the shown table `view`; on a successful load, records the row and marks it
   `Processing` in the stored table `disk`. On either failure the stored table
   is not touched.
   */
  function ImportVolume(s: Session, view: Table, sel: Option<Selection>, download: DownloadRequest -> bool,
                        disk: Table, labs: string): (o: Outcome)
    requires view.Valid() && disk.Valid()
    ensures o.saved == []
    ensures o.session.activeCell == ActiveCellByCol(view, sel, LinkColumn)
    ensures o.session.specimenName + SplitExt(ActiveCellByCol(view, sel, SpecimenFileColumn)).1
              == ActiveCellByCol(view, sel, SpecimenFileColumn)
    ensures o.session.markups == s.markups && o.session.segmentation == s.segmentation
    ensures !Loads(view, sel, download) ==> o.disk == disk && o.session.activeRow == s.activeRow
    ensures Loads(view, sel, download) ==> o.session.activeRow == Some(ActiveCellRow(sel)) && o.session.volume.Some?
    ensures o.session.activeCell != "" ==> o.session.volume == ImportFromUrl(o.session.activeCell, download)
    ensures o.session.activeCell == "" ==> o.session.volume == s.volume
    ensures Loads(view, sel, download) ==> 1 <= ActiveCellRow(sel) <= view.rows
    ensures Loads(view, sel, download) ==> o.disk == WriteStatus(disk, ActiveCellRow(sel), Processing, labs)
  {
    var link := ActiveCellByCol(view, sel, LinkColumn);
    var specimen := SplitExt(ActiveCellByCol(view, sel, SpecimenFileColumn)).0;
    var s1 := s.(activeCell := link, specimenName := specimen);
    if link == "" then Outcome(s1, disk, [])
    else
      var volume := ImportFromUrl(link, download);
      var s2 := s1.(volume := volume);
      if volume.None? then Outcome(s2, disk, [])
      else
        var row := ActiveCellRow(sel);
        ActiveCellLocatesRow(view, sel, LinkColumn);
        Outcome(s2.(activeRow := Some(row)), WriteStatus(disk, row, Processing, labs), [])
  }

  /**
   `updateTableAndGUI`: marks the recorded row `Complete` in the stored table;
   with no row recorded the write fails and nothing is saved.
   */
  function UpdateTableAndGui(s: Session, disk: Table, labs: string): (t: Table)
    requires disk.Valid()
    ensures t.Valid()
    ensures s.activeRow.None? ==> t == disk
    ensures t == disk || ChangedOnlyStatusAndUser(disk, t, s.activeRow.value - 1)
    ensures t != disk ==>
              && StatusAt(t, s.activeRow.value - 1) == Some(Complete)
              && UserAt(t, s.activeRow.value - 1) == Some(labs)
    ensures s.activeRow.Some? && UpdateStatus(disk, s.activeRow.value, Complete, labs).Success? ==>
              && StatusAt(t, s.activeRow.value - 1) == Some(Complete)
              && UserAt(t, s.activeRow.value - 1) == Some(labs)
  {
    match s.activeRow
    case None => disk
    case Some(row) => WriteStatus(disk, row, Complete, labs)
  }

  /** The landmark file's stem as the export computes it: the whole link without its extension. */
  function LandmarkStemAsWritten(link: string): (r: string)
    ensures r + SplitExt(link).1 == link
  {
    SplitExt(link).0
  }

  /**
   `onExportLandmarks`: once a landmark node exists, saves it into the output
   directory as `<specimen>.fcsv`, the stem the segmentation export uses, and
   marks the recorded row `Complete`.
   */
  function ExportLandmarks(s: Session, disk: Table, outputDir: string, labs: string): (o: Outcome)
    requires disk.Valid()
    ensures o.session == s
    ensures !s.markups ==> o.disk == disk && o.saved == []
    ensures s.markups ==>
              && o.saved == [Join(outputDir, s.specimenName) + LandmarkSuffix]
              && o.disk == UpdateTableAndGui(s, disk, labs)
  {
    if !s.markups then Outcome(s, disk, [])
    else
      JoinThenSuffix(outputDir, s.specimenName, LandmarkSuffix);
      Outcome(s, UpdateTableAndGui(s, disk, labs), [Join(outputDir, s.specimenName + LandmarkSuffix)])
  }

  /**
   `onExportSegmentation`: once a segmentation exists, saves it as
   `<specimen>.nrrd` and its labelmap as `<specimen>.tif` in the output
   directory, then marks the recorded row `Complete`.
   */
  function ExportSegmentation(s: Session, disk: Table, outputDir: string, labs: string): (o: Outcome)
    requires disk.Valid()
    ensures o.session == s
    ensures !s.segmentation ==> o.disk == disk && o.saved == []
    ensures s.segmentation ==>
              && o.saved == [Join(outputDir, s.specimenName) + SegmentationSuffix, Join(outputDir, s.specimenName) + LabelmapSuffix]
              && o.disk == UpdateTableAndGui(s, disk, labs)
  {
    if !s.segmentation then Outcome(s, disk, [])
    else
      var nrrd := s.specimenName + SegmentationSuffix;
      var tif := s.specimenName + LabelmapSuffix;
      JoinThenSuffix(outputDir, s.specimenName, SegmentationSuffix);
      JoinThenSuffix(outputDir, s.specimenName, LabelmapSuffix);
      Outcome(s, UpdateTableAndGui(s, disk, labs), [Join(outputDir, nrrd), Join(outputDir, tif)])
  }

  lemma NoSlashWithSuffix(stem: string, suffix: string)
    requires '/' !in stem && '/' !in suffix
    ensures '/' !in stem + suffix
  {
    forall k | 0 <= k < |stem + suffix|
      ensures (stem + suffix)[k] != '/'
    {
      if k < |stem| {
        assert (stem + suffix)[k] == stem[k];
      } else {
        assert (stem + suffix)[k] == suffix[k - |stem|];
      }
    }
  }

  /** A specimen name without '/' puts both segmentation outputs directly in the output directory. */
  lemma SegmentationFilesInOutputDir(s: Session, disk: Table, outputDir: string, labs: string)
    requires disk.Valid()
    requires s.segmentation && '/' !in s.specimenName
    ensures var o := ExportSegmentation(s, disk, outputDir, labs);
            var nrrd := s.specimenName + SegmentationSuffix;
            var tif := s.specimenName + LabelmapSuffix;
            && (o.saved[0] == outputDir + nrrd || o.saved[0] == outputDir + "/" + nrrd)
            && (o.saved[1] == outputDir + tif || o.saved[1] == outputDir + "/" + tif)
            && Basename(o.saved[0]) == nrrd && Basename(o.saved[1]) == tif
  {
    NoSlashWithSuffix(s.specimenName, SegmentationSuffix);
    NoSlashWithSuffix(s.specimenName, LabelmapSuffix);
    JoinPlacesNameInDir(outputDir, s.specimenName + SegmentationSuffix);
    JoinPlacesNameInDir(outputDir, s.specimenName + LabelmapSuffix);
  }

  /**
   The stored table changes on import only after a successful load, and then
   only in the selected row's `Status` and `User` cells, which read
   `Processing` and the lab; when the stored table has both columns and still
   holds the row, that write always happens.
   */
  lemma ImportMarksProcessingOnlyAfterLoad(s: Session, view: Table, sel: Option<Selection>,
                                           download: DownloadRequest -> bool, disk: Table, labs: string)
    requires view.Valid() && disk.Valid()
    ensures var o := ImportVolume(s, view, sel, download, disk, labs);
            var row := ActiveCellRow(sel) - 1;
            && (o.disk == disk || ChangedOnlyStatusAndUser(disk, o.disk, row))
            && (o.disk != disk ==>
                  Loads(view, sel, download) && StatusAt(o.disk, row) == Some(Processing) && UserAt(o.disk, row) == Some(labs))
            && (Loads(view, sel, download) && ColumnIndex(disk, StatusName).Some? && ColumnIndex(disk, UserName).Some?
                && ActiveCellRow(sel) <= disk.rows ==>
                  StatusAt(o.disk, row) == Some(Processing) && UserAt(o.disk, row) == Some(labs))
  {
  }

  /**
   Importing a row and then exporting its landmarks leaves that row with
   `Status` "Complete" and `User` the lab, every other cell of the stored
   table as it was, and one landmark file named after the row's specimen.
   */
  lemma ImportThenExportCompletes(s: Session, view: Table, sel: Option<Selection>,
                                  download: DownloadRequest -> bool, disk: Table, labs: string, outputDir: string)
    requires view.Valid() && disk.Valid()
    requires Loads(view, sel, download)
    requires ColumnIndex(disk, StatusName).Some? && ColumnIndex(disk, UserName).Some?
    requires view.rows <= disk.rows
    ensures var o1 := ImportVolume(s, view, sel, download, disk, labs);
            var o2 := ExportLandmarks(o1.session.(markups := true), o1.disk, outputDir, labs);
            var row := ActiveCellRow(sel) - 1;
            && StatusAt(o1.disk, row) == Some(Processing)
            && StatusAt(o2.disk, row) == Some(Complete)
            && UserAt(o2.disk, row) == Some(labs)
            && ChangedOnlyStatusAndUser(disk, o2.disk, row)
            && o2.saved == [Join(outputDir, SplitExt(ActiveCellByCol(view, sel, SpecimenFileColumn)).0) + LandmarkSuffix]
  {
    var o1 := ImportVolume(s, view, sel, download, disk, labs);
    var index := ActiveCellRow(sel);
    assert UpdateStatus(disk, index, Processing, labs).Success?;
    var t1 := o1.disk;
    SameNamesSameIndex(disk, t1, StatusName);
    SameNamesSameIndex(disk, t1, UserName);
    assert UpdateStatus(t1, index, Complete, labs).Success?;
    var s1 := o1.session.(markups := true);
    var t2 := ExportLandmarks(s1, t1, outputDir, labs).disk;
    assert t2 == WriteStatus(t1, index, Complete, labs);
    assert ChangedOnlyStatusAndUser(disk, t1, index - 1);
    assert ChangedOnlyStatusAndUser(t1, t2, index - 1);
    ChangedOnlyStatusAndUserTransitive(disk, t1, t2, index - 1);
  }

  /** After a successful import marks a row, `hideCompletedSamples` would hide that row. */
  lemma ProcessedRowIsHidden(s: Session, view: Table, sel: Option<Selection>,
                             download: DownloadRequest -> bool, disk: Table, labs: string)
    requires view.Valid() && disk.Valid()
    requires Loads(view, sel, download)
    requires ColumnIndex(disk, StatusName).Some? && ColumnIndex(disk, UserName).Some?
    requires view.rows <= disk.rows
    ensures ActiveCellRow(sel) in HiddenRows(ImportVolume(s, view, sel, download, disk, labs).disk)
  {
    var o := ImportVolume(s, view, sel, download, disk, labs);
    var index := ActiveCellRow(sel);
    assert UpdateStatus(disk, index, Processing, labs).Success?;
    SameNamesSameIndex(disk, o.disk, StatusName);
    var st := ColumnIndex(o.disk, StatusName).value;
    assert o.disk.Cell(index - 1, st) == Processing != "";
  }

  /**
   The export as written derives the landmark stem from the whole link: for a
   link containing '/', such as any URL, the stem keeps a '/', so the saved
   path is not a file named `<stem>.fcsv` in the output directory.
   */
  lemma LandmarkStemAsWrittenLeavesOutputDir(link: string, outputDir: string)
    requires '/' in link
    ensures '/' in LandmarkStemAsWritten(link)
    ensures Basename(Join(outputDir, LandmarkStemAsWritten(link) + LandmarkSuffix)) != LandmarkStemAsWritten(link) + LandmarkSuffix
  {
    var stem := LandmarkStemAsWritten(link);
    var ext := SplitExt(link).1;
    var k :| 0 <= k < |link| && link[k] == '/';
    assert stem + ext == link;
    forall j | |stem| <= j < |link|
      ensures link[j] != '/'
    {
      assert link[j] == ext[j - |stem|];
    }
    assert stem[k] == link[k];
    assert (stem + LandmarkSuffix)[k] == '/';
  }

  /**
   With the specimen's stem and a specimen name without '/', the landmark file
   is `<specimen>.fcsv` directly in the output directory, and it shares the
   path stem `<dir>/<specimen>` with the segmentation outputs.
   */
  lemma LandmarkFileInOutputDir(s: Session, disk: Table, outputDir: string, labs: string)
    requires disk.Valid()
    requires s.markups && '/' !in s.specimenName
    ensures var o := ExportLandmarks(s, disk, outputDir, labs);
            var fcsv := s.specimenName + LandmarkSuffix;
            && |o.saved| == 1
            && (o.saved[0] == outputDir + fcsv || o.saved[0] == outputDir + "/" + fcsv)
            && Basename(o.saved[0]) == fcsv
            && (s.segmentation ==>
                  o.saved[0][..|o.saved[0]| - |LandmarkSuffix|]
                    == ExportSegmentation(s, disk, outputDir, labs).saved[0][..|o.saved[0]| - |LandmarkSuffix|])
  {
    var stem := Join(outputDir, s.specimenName);
    var o := ExportLandmarks(s, disk, outputDir, labs);
    NoSlashWithSuffix(s.specimenName, LandmarkSuffix);
    JoinThenSuffix(outputDir, s.specimenName, LandmarkSuffix);
    JoinPlacesNameInDir(outputDir, s.specimenName + LandmarkSuffix);
    assert o.saved[0][..|stem|] == stem;
    if s.segmentation {
      assert ExportSegmentation(s, disk, outputDir, labs).saved[0][..|stem|] == stem;
    }
  }
}

=== FILE: worklist.dfy ===
/**
 The worklist table and the operations the module performs on it: the
 schema repair done when a table is loaded, the per-row status write, the
 filter that hides rows already carrying a status, and the lookup of the
 cell the operator has selected.
 */
module Worklist {
  import opened Wrappers

  const StatusName := "Status"
  const UserName := "User"

  /** One named column of the table; every cell is text. */
  datatype Column = Column(name: string, cells: seq<string>)

  /** A worklist as the host's table node holds it: named columns, each with one cell per data row. */
  datatype Table = Table(columns: seq<Column>, rows: nat) {

    /** Every column has one cell per data row, and a table without columns has no rows. */
    predicate Valid()
    {
      && (forall c :: 0 <= c < |columns| ==> |columns[c].cells| == rows)
      && (|columns| == 0 ==> rows == 0)
    }

    /** The host's `GetCellText(row, col)`: the cell's text, or "" outside the table. */
    function Cell(row: int, col: int): string
    {
      if 0 <= col < |columns| && 0 <= row < |columns[col].cells| then columns[col].cells[row] else ""
    }

    /** The column names in order. */
    function Names(): seq<string>
    {
      seq(|columns|, c requires 0 <= c < |columns| => columns[c].name)
    }
  }

  /** The host's `GetColumnByName`: the index of the first column called `name`, if any. */
  function ColumnIndex(t: Table, name: string): (r: Option<nat>)
    ensures r.Some? ==> r.value < |t.columns| && t.columns[r.value].name == name
    ensures forall c :: 0 <= c < |t.columns| && t.columns[c].name == name ==> r.Some? && r.value <= c
  {
    FirstNamed(t.columns, name, 0)
  }

  function FirstNamed(cols: seq<Column>, name: string, lo: nat): (r: Option<nat>)
    requires lo <= |cols|
    ensures r.Some? ==> lo <= r.value < |cols| && cols[r.value].name == name
    ensures forall c :: lo <= c < |cols| && cols[c].name == name ==> r.Some? && r.value <= c
    decreases |cols| - lo
  {
    if lo == |cols| then None
    else if cols[lo].name == name then Some(lo)
    else FirstNamed(cols, name, lo + 1)
  }

  /** Two tables with the same column names find every column at the same index. */
  lemma SameNamesSameIndex(t: Table, u: Table, name: string)
    requires t.Names() == u.Names()
    ensures ColumnIndex(t, name) == ColumnIndex(u, name)
  {
    assert |t.columns| == |u.columns|;
    forall c | 0 <= c < |t.columns|
      ensures t.columns[c].name == u.columns[c].name
    {
      assert t.Names()[c] == u.Names()[c];
    }
  }

  /** `n` empty cells: the content of a freshly added column. */
  function Blank(n: nat): seq<string>
  {
    seq(n, _ => "")
  }

  /** The table after repair, and whether it was written back to its file. */
  datatype Repair = Repair(table: Table, saved: bool)

  /**
   `checkForStatusColumn`: a table without a `Status` column gets two empty
   columns appended, `User` then `Status`, and is saved; a table that has one
   is left alone and not saved.
   */
  function CheckForStatusColumn(t: Table): (r: Repair)
    requires t.Valid()
    ensures r.table.Valid() && r.table.rows == t.rows
    ensures ColumnIndex(r.table, StatusName).Some?
    ensures ColumnIndex(t, StatusName).Some? ==> r == Repair(t, false)
    ensures ColumnIndex(t, StatusName).None? ==>
              && r.saved
              && |r.table.columns| == |t.columns| + 2
              && r.table.columns[..|t.columns|] == t.columns
              && r.table.columns[|t.columns|].name == UserName
              && ColumnIndex(r.table, StatusName) == Some(|t.columns| + 1)
              && forall row :: r.table.Cell(row, |t.columns|) == "" && r.table.Cell(row, |t.columns| + 1) == ""
  {
    if ColumnIndex(t, StatusName).Some? then Repair(t, false)
    else
      var cols := t.columns + [Column(UserName, Blank(t.rows)), Column(StatusName, Blank(t.rows))];
      assert cols[..|t.columns|] == t.columns;
      assert forall c :: 0 <= c < |t.columns| ==> cols[c] == t.columns[c];
      assert cols[|t.columns|].name == UserName != StatusName;
      assert cols[|t.columns| + 1].name == StatusName;
      Repair(Table(cols, t.rows), true)
  }

  /** Repairing twice is repairing once: the second run finds `Status` and neither changes nor saves the table. */
  lemma CheckForStatusColumnIdempotent(t: Table)
    requires t.Valid()
    ensures CheckForStatusColumn(CheckForStatusColumn(t).table) == Repair(CheckForStatusColumn(t).table, false)
  {
  }

  /** `t` with the cell at (`row`, `col`) replaced by `v`. */
  function SetCell(t: Table, col: nat, row: nat, v: string): (r: Table)
    requires t.Valid() && col < |t.columns| && row < t.rows
    ensures r.Valid() && r.rows == t.rows && r.Names() == t.Names()
    ensures r.Cell(row, col) == v
    ensures forall i, c :: (i != row || c != col) ==> r.Cell(i, c) == t.Cell(i, c)
  {
    var column := t.columns[col];
    var r := Table(t.columns[col := Column(column.name, column.cells[row := v])], t.rows);
    assert r.Names() == t.Names();
    r
  }

  /** The `Status` text of data row `row`, when the table has a `Status` column. */
  function StatusAt(t: Table, row: int): Option<string>
  {
    match ColumnIndex(t, StatusName)
    case None => None
    case Some(s) => Some(t.Cell(row, s))
  }

  /** The `User` text of data row `row`, when the table has a `User` column. */
  function UserAt(t: Table, row: int): Option<string>
  {
    match ColumnIndex(t, UserName)
    case None => None
    case Some(u) => Some(t.Cell(row, u))
  }

  /** `u` is `t` with at most the `Status` and `User` cells of data row `row` rewritten. */
  ghost predicate ChangedOnlyStatusAndUser(t: Table, u: Table, row: int)
  {
    && u.Valid() && u.rows == t.rows && u.Names() == t.Names()
    && forall i, c :: (i != row || (Some(c) != ColumnIndex(t, StatusName) && Some(c) != ColumnIndex(t, UserName))) ==>
                        u.Cell(i, c) == t.Cell(i, c)
  }

  /** Two rewrites of the same row's `Status` and `User` cells together rewrite only those cells. */
  lemma ChangedOnlyStatusAndUserTransitive(t: Table, u: Table, v: Table, row: int)
    requires ChangedOnlyStatusAndUser(t, u, row) && ChangedOnlyStatusAndUser(u, v, row)
    ensures ChangedOnlyStatusAndUser(t, v, row)
  {
    SameNamesSameIndex(t, u, StatusName);
    SameNamesSameIndex(t, u, UserName);
  }

  /** Why a status write was abandoned. */
  datatype TableError = MissingColumn(name: string) | RowOutOfRange(index: int)

  /**
   `updateStatus(index, status)` applied to the table just re-read from its
   file: view row `index` is data row `index - 1`, whose `Status` cell becomes
   `status` and whose `User` cell becomes `user`. The updated table is what is
   saved; on failure nothing is saved.
   */
  function UpdateStatus(t: Table, index: int, status: string, user: string): (r: Result<Table, TableError>)
    requires t.Valid()
    ensures ColumnIndex(t, StatusName).None? ==> r == Failure(MissingColumn(StatusName))
    ensures r.Success? <==>
              ColumnIndex(t, StatusName).Some? && ColumnIndex(t, UserName).Some? && 1 <= index <= t.rows
    ensures r.Success? ==>
              && StatusAt(r.value, index - 1) == Some(status)
              && UserAt(r.value, index - 1) == Some(user)
              && ChangedOnlyStatusAndUser(t, r.value, index - 1)
  {
    match ColumnIndex(t, StatusName)
    case None => Failure(MissingColumn(StatusName))
    case Some(s) =>
      if !(1 <= index <= t.rows) then Failure(RowOutOfRange(index))
      else
        match ColumnIndex(t, UserName)
        case None => Failure(MissingColumn(UserName))
        case Some(u) =>
          var r := SetCell(SetCell(t, s, index - 1, status), u, index - 1, user);
          SameNamesSameIndex(t, r, StatusName);
          SameNamesSameIndex(t, r, UserName);
          Success(r)
  }

  /**
   The stored table after `updateStatus`, whether or not it succeeded: a
   failed write saves nothing and leaves the stored table as it was.
   */
  function WriteStatus(t: Table, index: int, status: string, user: string): (r: Table)
    requires t.Valid()
    ensures r.Valid()
    ensures r == t || ChangedOnlyStatusAndUser(t, r, index - 1)
    ensures r != t ==> StatusAt(r, index - 1) == Some(status) && UserAt(r, index - 1) == Some(user)
    ensures UpdateStatus(t, index, status, user).Success? ==>
              StatusAt(r, index - 1) == Some(status) && UserAt(r, index - 1) == Some(user)
    ensures UpdateStatus(t, index, status, user).Failure? ==> r == t
  {
    UpdateStatus(t, index, status, user).GetOr(t)
  }

  /** A second write to the same row replaces the first: only the last status written survives. */
  lemma {:induction false} UpdateStatusOverwrites(t: Table, index: int, first: string, second: string, user: string)
    requires t.Valid()
    requires UpdateStatus(t, index, first, user).Success?
    ensures UpdateStatus(UpdateStatus(t, index, first, user).value, index, second, user) == UpdateStatus(t, index, second, user)
  {
    var t1 := UpdateStatus(t, index, first, user).value;
    SameNamesSameIndex(t, t1, StatusName);
    SameNamesSameIndex(t, t1, UserName);
    var st := ColumnIndex(t, StatusName).value;
    var us := ColumnIndex(t, UserName).value;
    var a := UpdateStatus(t1, index, second, user).value;
    var b := UpdateStatus(t, index, second, user).value;
    assert |a.columns| == |b.columns|;
    forall c | 0 <= c < |a.columns|
      ensures a.columns[c] == b.columns[c]
    {
      assert a.Names()[c] == b.Names()[c];
      forall i | 0 <= i < a.rows
        ensures a.columns[c].cells[i] == b.columns[c].cells[i]
      {
        if i == index - 1 && c == st {
          assert a.Cell(i, c) == second == b.Cell(i, c);
        } else if i == index - 1 && c == us {
          assert a.Cell(i, c) == user == b.Cell(i, c);
        } else {
          assert a.Cell(i, c) == t1.Cell(i, c) == t.Cell(i, c) == b.Cell(i, c);
        }
      }
      assert a.columns[c].cells == b.columns[c].cells;
    }
    assert a.columns == b.columns;
  }

  /** A repaired table accepts every in-range status write unless it already had `Status` but no `User`. */
  lemma RepairedTableAcceptsUpdates(t: Table, index: int, status: string, user: string)
    requires t.Valid() && 1 <= index <= t.rows
    ensures UpdateStatus(CheckForStatusColumn(t).table, index, status, user).Success? <==>
              (ColumnIndex(t, StatusName).None? || ColumnIndex(t, UserName).Some?)
  {
    var r := CheckForStatusColumn(t).table;
    if ColumnIndex(t, StatusName).None? {
      assert r.columns[|t.columns|].name == UserName;
    }
  }

  /** The view rows whose data row carries any status text (view row `r` shows data row `r - 1`). */
  function HiddenRows(t: Table): set<int>
  {
    match ColumnIndex(t, StatusName)
    case None => {}
    case Some(s) => set i | 0 <= i < t.rows && t.Cell(i, s) != "" :: i + 1
  }

  /**
   `hideCompletedSamples`: the view rows it hides. Without a `Status` column
   it hides nothing; otherwise any non-empty status hides the row.
   */
  method HideCompletedSamples(t: Table) returns (hidden: set<int>)
    requires t.Valid()
    ensures ColumnIndex(t, StatusName).None? ==> hidden == {}
    ensures ColumnIndex(t, StatusName).Some? ==>
              forall r :: r in hidden <==> 1 <= r <= t.rows && t.Cell(r - 1, ColumnIndex(t, StatusName).value) != ""
    ensures hidden == HiddenRows(t)
  {
    hidden := {};
    var status := ColumnIndex(t, StatusName);
    if status.None? {
      return;
    }
    var current := 0;
    while current < t.rows
      invariant 0 <= current <= t.rows
      invariant forall r :: r in hidden <==> 1 <= r <= current && t.Cell(r - 1, status.value) != ""
    {
      if t.Cell(current, status.value) != "" {
        hidden := hidden + {current + 1};
      }
      current := current + 1;
    }
    assert forall r :: r in HiddenRows(t) <==> 1 <= r <= t.rows && t.Cell(r - 1, status.value) != "";
  }

  /** The view index (row, column) of the first selected cell. */
  datatype Selection = Selection(row: nat, column: nat)

  /** `getActiveCellByCol`: column `col` of the selected row, or "" when nothing is selected. */
  function ActiveCellByCol(t: Table, sel: Option<Selection>, col: nat): (r: string)
    ensures sel.None? ==> r == ""
    ensures r != "" ==> sel.Some? && col < |t.columns| && 1 <= sel.value.row <= |t.columns[col].cells|
  {
    if sel.None? then "" else t.Cell(sel.value.row - 1, col)
  }

  /** `getActiveCellRow`: the selected view row, or 0 (Python's `False`) when nothing is selected. */
  function ActiveCellRow(sel: Option<Selection>): (r: nat)
    ensures sel.None? ==> r == 0
  {
    if sel.None? then 0 else sel.value.row
  }

  /**
   A non-empty active cell pins down the row that will be written: the view
   row `ActiveCellRow` is a real row, and its data row holds the cell's text.
   */
  lemma ActiveCellLocatesRow(t: Table, sel: Option<Selection>, col: nat)
    requires t.Valid()
    requires ActiveCellByCol(t, sel, col) != ""
    ensures 1 <= ActiveCellRow(sel) <= t.rows
    ensures t.Cell(ActiveCellRow(sel) - 1, col) == ActiveCellByCol(t, sel, col)
  {
  }
}

=== FILE: wrappers.dfy ===
/** Failure-carrying result types shared by the worklist model. */
module Wrappers {

  /** A value that may be absent: the host's `None`/`False` sentinels. */
  datatype Option<+T> = None | Some(value: T)

  /** Either a value or the error that stopped the operation. */
  datatype Result<+T, +E> = Success(value: T) | Failure(error: E) {

    /** The success value, or `default` when the operation failed. */
    function GetOr(default: T): T
    {
      match this
      case Success(v) => v
      case Failure(_) => default
    }
  }
}
